=== FILE: README.md ===
# Developer-blog feed and post form: a Dafny model

The application is a Next.js front end for a developer blog. It runs on a managed
backend that handles authentication, storage and GraphQL. Two pieces of it hold logic
of their own, and this project models both as pure functions with proved contracts:

- **The posts feed** (`app/posts/page.tsx`). This covers the text helpers for avatar
  initials, null-safe length and split, the 200-character excerpt and the reading-time
  label. It also covers the `page` query parameter, the variables of the paged query
  (5 posts per page), the pagination flags and the "All / Mine" filter over the fetched
  page. It includes the URLs that the pager and the filter tabs navigate to, and whether
  the empty state or the post grid is shown.
- **The post form** (`app/components/AddPostForm.tsx`). This covers the zod length
  checks on title and content and the profile check-then-upsert. It includes the submit
  sequence (session re-check, insert, reset, close) and the compose modal that hosts
  the form.

Strings are Dafny strings: sequences of Unicode scalar values. JavaScript counts UTF-16
code units, so `|s|` is JavaScript's `length` only for text with no character beyond
U+FFFF (see "## Left out"). A post
is `Post(id, title, content, authorId, authorName)`, and a fetched page is a
`seq<Post>`. The backend is abstract. Each call the form makes is recorded in a trace,
and the backend's answers (`Services`) are inputs.

Files:

| file | module | models |
|---|---|---|
| `wrappers.dfy` | `Wrappers` | `Option`, and JavaScript's `||` over optional strings |
| `js_string.dfy` | `JsString` | `substring`, `lastIndexOf`, `split`/`join`, `trim`, ASCII `toUpperCase` |
| `js_number.dfy` | `JsNumber` | unary `+` on strings (integer numerals), `${n}` for integers |
| `search_params.dfy` | `SearchParams` | URLSearchParams `get`/`getAll`/`set`/`delete` over decoded pairs |
| `entities.dfy` | `Entities` | `Post`, `User` |
| `post_text.dfy` | `PostText` | the text helpers of the feed page |
| `posts_feed.dfy` | `PostsFeed` | page parsing, query variables, pagination, filter, navigation, feed view |
| `add_post_form.dfy` | `AddPostForm` | schema, profile upsert, submit flow, compose modal |

## Behaviour worth knowing

Several lemmas state behaviour of the code that a reader might not expect.

- **Negative pages are not clamped.** `+"-3"` is `-3`, which is truthy, so `?page=-3`
  asks the backend for offset -20 (`PostsFeed.NegativePageNotClamped`). Pages below 1
  are never turned into page 1.
- **Length checks see the untrimmed text.** In the schema, `.trim()` comes after
  `min`/`max`. A title of five spaces passes and is submitted as `""`
  (`AddPostForm.BlankTitleAccepted`).
- **"Mine" filters only the fetched page.** The tab shows and counts the user's posts
  on the current page only, never more than 5 (`PostsFeed.MineSeesOnlyCurrentPage`).
- **"Next" can lead to an empty page.** It is offered whenever the page is full, even
  when the page holds the last rows (`PostsFeed.FullLastPageLeadsNowhere`).
- **An empty list hides the pager.** The pager sits inside the non-empty branch. So the
  "Mine" tab on a page with none of the user's posts offers no "Next", and the empty
  page after a full last page offers no "Previous" (`PostsFeed.EmptyFeedHidesPager`).
- **"Next" from page -1 jumps to page 1.** On page -1, reached only by typing
  `?page=-1`, "Next" writes `?page=0`, which reads back as page 1 (`PostsFeed.PagerSteps`).
- **A filter change can refetch.** Changing the filter navigates to `/posts`. If the
  page was not 1, the page number changes, and the page-keyed effect refetches. The
  filter itself is never part of the query.
- **The author id comes from the page.** The insert carries the `authorId` prop from
  the page's user, not the id of the session re-read just before it
  (`AddPostForm.OnSubmit`).
- **Submit failures are only logged.** A missing session or a failed insert leaves the
  modal open with the fields intact and shows no message.

## Model

| member | source | states |
|---|---|---|
| `PostText.GetFirstChar` | app/posts/page.tsx:13-17 | "U" for null, undefined or ""; otherwise the upper-cased first character; always exactly one character, never a lower-case ASCII letter |
| `PostText.GetStringLength` | app/posts/page.tsx:20-23 | 0 exactly when the string is absent or empty, else its length |
| `PostText.SafeSplit` | app/posts/page.tsx:26-29 | no pieces for a falsy string; otherwise at least one piece, joining the pieces with the delimiter gives the string back, no piece contains a non-empty delimiter, and every piece but the last ends at the earliest occurrence of the delimiter (the left-to-right scan, also for a delimiter that overlaps itself) |
| `JsString.SplitOnUnique` | app/posts/page.tsx:26-29 | those three properties pin the split: any pieces that join back to the string, hold no delimiter and end at earliest occurrences are exactly what `split` returns |
| `PostText.CreateExcerpt` | app/posts/page.tsx:46-62 | "" for empty content; content unchanged when no longer than maxLength; otherwise a prefix of at most maxLength characters plus "..."; that prefix is shorter exactly when a space lies past 4/5 of the window, and then it ends just before the last such space |
| `PostText.ExcerptAtCallSite` | app/posts/page.tsx:670 | at the call with maxLength 200, a long post's excerpt is 164 to 203 characters long |
| `PostText.ReadingMinutes` | app/posts/page.tsx:678 | the label's minutes r satisfy 200(r-1) <= length < 200r, so r is ⌊length/200⌋ + 1: 1 for empty content, 2 at exactly 200 characters |
| `PostText.AuthorLabel` | app/posts/page.tsx:641 | a post card names the joined profile's name, or "Unknown Author" when it is absent or empty; never "" |
| `PostText.CardAvatarMatchesAuthor` | app/posts/page.tsx:634-641 | a card's avatar letter is always the initial of its author line, including the fallback "U" of "Unknown Author" |
| `PostText.AvatarInitial` | app/posts/page.tsx:430 | the header avatar is the initial of the first truthy of full name, name and email, one character long |
| `PostText.DisplayName` | app/posts/page.tsx:436 | a name hint when there is one; otherwise the part of the email before its first '@', a prefix of the email with no '@' in it |
| `PostText.AvatarMatchesDisplayName` | app/posts/page.tsx:430-436 | whenever the header name is non-empty, the avatar letter is that name's initial |
| `PostsFeed.ParsePage` | app/posts/page.tsx:118-119 | never 0; 1 for a missing or empty parameter and for values converting to 0 or NaN; otherwise the converted value, negatives kept |
| `PostsFeed.ParsePageShowInt` | app/posts/page.tsx:118-119 | parsing the decimal rendering of any integer n gives n back (1 for n = 0) |
| `PostsFeed.NegativePageNotClamped` | app/posts/page.tsx:119-172 | `?page=-3` yields page -3, whose query asks for offset -20 |
| `PostsFeed.FetchVariables` | app/posts/page.tsx:169-172 | asks for 5 rows; the offset is negative exactly for pages below 1, and a multiple of 5 from page 1 on |
| `PostsFeed.PagesTile` | app/posts/page.tsx:170-171 | row k belongs to page p (p >= 1) exactly when p = k / 5 + 1; consecutive pages ask for adjacent windows |
| `PostsFeed.HasPreviousPage` | app/posts/page.tsx:201 | "Previous" is offered exactly when the current query skips at least one page of rows, so never on page 1 or on a negative page |
| `PostsFeed.HasNextPageHeuristic` | app/posts/page.tsx:200 | against a backend answering with its window, "Next" is offered exactly when the corpus reaches the end of the current page, so it is never missing when more rows exist |
| `PostsFeed.FullLastPageLeadsNowhere` | app/posts/page.tsx:200 | when the corpus ends exactly at a page boundary, "Next" is offered and the next window is empty |
| `PostsFeed.OwnPosts` | app/posts/page.tsx:196-197 | the filtered list is no longer than the page and holds only the user's posts |
| `PostsFeed.DisplayedPosts` | app/posts/page.tsx:196-198 | the shown list is an in-order selection of the fetched page: the whole page for "All"; for "Mine", only the user's posts, as many as the page holds |
| `PostsFeed.OwnPostsIsOrderedSelection` | app/posts/page.tsx:196-198 | the "Mine" list is a subsequence of the fetched page, in page order, with as many entries as the page has own positions |
| `PostsFeed.OwnPostsUnique` | app/posts/page.tsx:196-198 | any ordered selection of the user's posts that misses none is the "Mine" list |
| `PostsFeed.BadgeCounts` | app/posts/page.tsx:557-573 | the "Mine" badge never exceeds the "All" badge, which counts the fetched page |
| `PostsFeed.MineSeesOnlyCurrentPage` | app/posts/page.tsx:193-198 | for any corpus of more than five rows all by one author, every row is theirs, but page 1's "Mine" view shows exactly the first five |
| `PostsFeed.HandlePageChange` | app/posts/page.tsx:203-211 | page 1 removes every `page` parameter, any other page leaves exactly one holding its decimal form; the path and all other parameters are kept |
| `PostsFeed.PageChangeRoundTrip` | app/posts/page.tsx:203-211 | after navigating to page n (n != 0), the page read back from the URL is n |
| `PostsFeed.PagerSteps` | app/posts/page.tsx:695-716 | for every page the URL can give (any page but 0): "Previous" (offered only past page 1) lands on the page before; "Next" lands on the page after, except that from page -1 it writes `?page=0` and lands on page 1 |
| `PostsFeed.HandleViewFilter` | app/posts/page.tsx:231-235 | the filter is set and the target is `/posts` with an empty query, which reads as page 1 |
| `PostsFeed.RenderFeed` | app/posts/page.tsx:580-716 | the empty state is shown exactly when the filtered list is empty, with a heading chosen by the filter; otherwise the grid shows that list, and a pager appears exactly when either direction is open |
| `PostsFeed.EmptyFeedHidesPager` | app/posts/page.tsx:580-716 | a "Mine" page with none of the user's posts, or an empty fetched page, renders the empty state, so no pager is shown |
| `AddPostForm.RunChecks` | app/components/AddPostForm.tsx:11-21 | a zod string chain reports at most one issue per check; a chain without `trim` returns its input and reports nothing exactly when the input passes every length check |
| `AddPostForm.LengthChain` | app/components/AddPostForm.tsx:11-21 | a "required / at least / at most / trim" chain judges the untrimmed length, shows the first failing message, and yields the trimmed value |
| `AddPostForm.Validate` | app/components/AddPostForm.tsx:11-22 | accepted exactly when 5 <= title length <= 100 and 50 <= content length <= 5000 (raw lengths); accepted data is the trimmed fields; otherwise each field's message is the first failing check ("... is required" for empty) |
| `AddPostForm.BlankTitleAccepted` | app/components/AddPostForm.tsx:12-16 | a title of 5 to 100 white-space characters passes and is submitted as "" |
| `AddPostForm.LimitWarningBand` | app/components/AddPostForm.tsx:228 | the limit warning is showing whenever content is rejected as too long, and it shows on accepted content exactly when its length is 4500 to 5000 |
| `AddPostForm.ProfileName` | app/components/AddPostForm.tsx:119 | the stored name is the full name when truthy, else the `name` hint when present, else "" |
| `AddPostForm.ProfileNameMatchesHeader` | app/components/AddPostForm.tsx:115-120 | with a name hint, the profile stores the name the page header shows, and the user's post cards show it too; without one it stores "" and the cards read "Unknown Author" |
| `AddPostForm.EnsureProfileExists` | app/components/AddPostForm.tsx:83-133 | no call without a user; otherwise exactly one lookup, by the user's id, then an upsert exactly when the lookup did not find the profile, and nothing else: one call when found, two otherwise; the upsert is keyed on the user's id, email and name hint |
| `AddPostForm.OnSubmit` | app/components/AddPostForm.tsx:136-183 | profile calls come first, then the session check; nothing follows without a session; the only insert is next and carries exactly the submitted title, content and authorId; reset, refresh and onCancel follow exactly when it succeeds |
| `AddPostForm.ProfileBeforeInsert` | app/components/AddPostForm.tsx:139-166 | every profile lookup or upsert comes before the insert |
| `AddPostForm.Step` | app/posts/page.tsx:222-229 | "Add post" opens an empty form on a closed modal and keeps an open one; the close button and the form's `onCancel` (both `handleCloseAddPost`) close the modal, refetching the feed when it was open; an edit stores the typed title and content in an open form, keeps its errors, and never opens or closes the modal; a submission does nothing to a closed modal and, when it does not close an open one, changes only its error fields; the feed is refetched exactly when an open modal closes, by the close button or by a successful submission |
| `AddPostForm.InvalidSubmitIssuesNothing` | app/components/AddPostForm.tsx:186-227 | a submission the schema rejects makes no call and keeps the typed fields, showing each field's first error |
| `AddPostForm.FailedSubmitKeepsForm` | app/components/AddPostForm.tsx:168-172 | without a session or with a failed insert, the modal stays open with the typed fields; there is no reset, no onCancel and no refetch |
| `AddPostForm.SuccessfulSubmitCloses` | app/components/AddPostForm.tsx:168-177 | a successful submission closes the modal; its last effects are the insert of the trimmed fields, reset, refresh, onCancel and the feed refetch |

## Left out

- Sessions and redirects: the auth check, `onAuthStateChange`, logout, and the redirect
  pages (`app/page.tsx`, `app/auth/*`). These are navigation driven by the identity
  provider's SDK.
- Apollo and GraphQL (`lib/apollo.ts`, `lib/apolloClient.ts`, `graphql/*.ts`,
  `backend/posts.ts`): query documents and network plumbing. The server's ordering
  by creation time is an assumption about the backend. `PostsFeed.Window` is an
  idealised backend used only to state the pagination lemmas.
- The `cache-first` fetch policy. A refetch of an already-seen page may be answered
  from Apollo's cache. This is not modelled.
- `lib/profile.ts` (a one-call upsert wrapper), `formatDate` (JavaScript `Date` and
  locale formatting), dark mode and `localStorage`, and the rest of the JSX: layout, styling and the elements not listed under "## Model". This includes
  `app/landing/page.tsx`, `Navbar.tsx`, `PostCard.tsx` and `app/posts/[id]/page.tsx`.
- Concurrency: overlapping fetches that resolve out of order, the loading and error
  screens, and the `isSubmitting` double-submit guard. These are asynchronous UI
  state, not sequential logic.
- Console logging, and the `isLoading` flag, which nothing reads.
- Validate: strings are sequences of Unicode scalar values, not UTF-16 code units. The
  length bounds agree with zod's only for text with no character beyond U+FFFF; a
  title of three emoji has JavaScript length 6 and passes, but the model counts 3.
- CreateExcerpt: cuts after maxLength characters, not code units. For text with
  characters beyond U+FFFF the cut falls later than JavaScript's, and the model cannot
  produce the half surrogate pair `substring` may leave at the end.
- GetStringLength: counts characters, not UTF-16 code units. It agrees with
  JavaScript's `length` only for text with no character beyond U+FFFF.
- ReadingMinutes: counts characters, not UTF-16 code units, so text with characters
  beyond U+FFFF gets fewer minutes than the page shows.
- GetFirstChar: takes the first character, never a lone surrogate. For a name starting
  with a character beyond U+FFFF, JavaScript's `charAt(0)` gives half of it.
  It also upper-cases ASCII letters only. JavaScript's full Unicode case
  mapping, which can also lengthen a character ('ß' becomes "SS"), is not modelled.
  The one-character guarantee holds for this mapping.
- ParsePage: recognises only optionally signed decimal digits, with white space
  around them. Other numerals that JavaScript's conversion accepts (fractions,
  exponents, hex/octal/binary, `Infinity`) are treated like non-numeric text.
  Doubles beyond 2^53 are not modelled.
- CreateExcerpt: compares `lastSpace > maxLength * 0.8` exactly, as
  `5 * lastSpace > 4 * maxLength`. This agrees with the floating-point product for
  maxLength = 200, the only value the page passes.
- ReadingMinutes: does not model the 32-bit truncation of `~~`. It only matters for
  content longer than 200 * 2^31 characters.
- HandlePageChange: models the query as decoded name/value pairs. Serialising them
  into `url.search` and parsing them again after navigation are assumed to be inverse.
  Pages are integers, so fractional pages such as `?page=2.5` are not modelled.
- EnsureProfileExists: the try/catch around the lookup and upsert is not modelled,
  because the client library reports failures as error values. The upsert's own
  answer is only logged, so it has no effect on the flow.
- AddPostForm.Step: after a rejected submission, react-hook-form re-validates on each
  edit. The model keeps the field errors until the next submission instead.

=== FILE: add_post_form.dfy ===
/**
 * The post-creation form (app/components/AddPostForm.tsx): the zod schema that checks
 * title and content, the profile check-then-upsert done before every insert, the
 * submit sequence, and the compose modal of the posts page that hosts the form.
 *
 * The backend is abstract: each call the form issues is recorded in a trace, and what
 * the backend answers is an input (`Services`).
 */
module AddPostForm {
  import opened Wrappers
  import opened JsString
  import opened Entities
  import opened PostText

  // ---------------------------------------------------------------------------
  // The schema

  /** One step of a zod string chain. */
  datatype Check = MinLength(bound: nat, message: string) | MaxLength(bound: nat, message: string) | TrimValue

  /** The value a chain produces and the messages of the checks that failed, in order. */
  datatype Parsed = Parsed(value: string, issues: seq<string>)

  /** A length check that the string passes; `trim` always passes. */
  predicate Passes(c: Check, input: string)
  {
    match c
    case MinLength(bound, _) => |input| >= bound
    case MaxLength(bound, _) => |input| <= bound
    case TrimValue => true
  }

  /** A zod string chain runs its steps in declared order; a length check that fails adds
      its message and parsing goes on, and `trim` replaces the value seen by later steps
      and returned at the end. A chain without `trim` returns its input, and reports no
      issue exactly when the input passes every check. */
  function RunChecks(checks: seq<Check>, input: string): (p: Parsed)
    ensures |p.issues| <= |checks|
    ensures TrimValue !in checks ==> p.value == input
    ensures TrimValue !in checks ==>
              (p.issues == [] <==> forall j :: 0 <= j < |checks| ==> Passes(checks[j], input))
  {
    if |checks| == 0 then Parsed(input, [])
    else match checks[0]
      case TrimValue => RunChecks(checks[1..], Trim(input))
      case MinLength(bound, message) =>
        var rest := RunChecks(checks[1..], input);
        Parsed(rest.value, (if |input| < bound then [message] else []) + rest.issues)
      case MaxLength(bound, message) =>
        var rest := RunChecks(checks[1..], input);
        Parsed(rest.value, (if |input| > bound then [message] else []) + rest.issues)
  }

  const TitleRequired := "Title is required"
  const TitleTooShort := "Title must be at least 5 characters"
  const TitleTooLong := "Title must be less than 100 characters"
  const ContentRequired := "Content is required"
  const ContentTooShort := "Content must be at least 50 characters"
  const ContentTooLong := "Content must be less than 5000 characters"

  /** `postSchema.title` */
  const TitleChecks: seq<Check> :=
    [MinLength(1, TitleRequired), MinLength(5, TitleTooShort), MaxLength(100, TitleTooLong), TrimValue]

  /** `postSchema.content` */
  const ContentChecks: seq<Check> :=
    [MinLength(1, ContentRequired), MinLength(50, ContentTooShort), MaxLength(5000, ContentTooLong), TrimValue]

  /** The message a field shows: its first issue (react-hook-form's default
      `criteriaMode: 'firstError'`). */
  function FirstIssue(issues: seq<string>): Option<string>
  {
    if |issues| == 0 then None else Some(issues[0])
  }

  /** The message a chain "required, at least `low`, at most `high`, then trim" shows,
      worked out from the untrimmed length. */
  function LengthMessage(len: nat, low: nat, high: nat, required: string, tooShort: string, tooLong: string): Option<string>
  {
    if len == 0 then Some(required)
    else if len < low then Some(tooShort)
    else if len > high then Some(tooLong)
    else None
  }

  /** Both schema fields are chains of this shape: every length check sees the raw input,
      the first failing one supplies the message, and the value produced is the trimmed
      input. */
  lemma LengthChain(low: nat, high: nat, required: string, tooShort: string, tooLong: string, s: string)
    requires 1 <= low <= high
    ensures var p := RunChecks([MinLength(1, required), MinLength(low, tooShort), MaxLength(high, tooLong), TrimValue], s);
            && p.value == Trim(s)
            && FirstIssue(p.issues) == LengthMessage(|s|, low, high, required, tooShort, tooLong)
            && (|p.issues| == 0 <==> low <= |s| <= high)
  {
    var last := [TrimValue];
    assert last[1..] == [];
    assert RunChecks(last[1..], Trim(s)) == Parsed(Trim(s), []);
    var p3 := RunChecks(last, s);
    assert p3 == Parsed(Trim(s), []);
    var upper := [MaxLength(high, tooLong)] + last;
    assert upper[1..] == last;
    var p2 := RunChecks(upper, s);
    assert p2 == Parsed(Trim(s), if |s| > high then [tooLong] else []);
    var lower := [MinLength(low, tooShort)] + upper;
    assert lower[1..] == upper;
    var p1 := RunChecks(lower, s);
    assert p1.value == Trim(s);
    var chain := [MinLength(1, required)] + lower;
    assert chain[1..] == lower;
    assert chain == [MinLength(1, required), MinLength(low, tooShort), MaxLength(high, tooLong), TrimValue];
  }

  /** The values handed to `onSubmit` once the schema accepts the form. */
  datatype PostInput = PostInput(title: string, content: string)

  datatype Validation = Valid(data: PostInput) | Invalid(titleError: Option<string>, contentError: Option<string>)

  /** `zodResolver(postSchema)`: both fields are checked; the form is accepted only when
      neither has an issue. */
  function Validate(title: string, content: string): (v: Validation)
    ensures v.Valid? <==> 5 <= |title| <= 100 && 50 <= |content| <= 5000
    ensures v.Valid? ==> v.data == PostInput(Trim(title), Trim(content))
    ensures v.Invalid? ==>
              v.titleError == (if |title| == 0 then Some(TitleRequired)
                               else if |title| < 5 then Some(TitleTooShort)
                               else if |title| > 100 then Some(TitleTooLong)
                               else None)
    ensures v.Invalid? ==>
              v.contentError == (if |content| == 0 then Some(ContentRequired)
                                 else if |content| < 50 then Some(ContentTooShort)
                                 else if |content| > 5000 then Some(ContentTooLong)
                                 else None)
  {
    LengthChain(5, 100, TitleRequired, TitleTooShort, TitleTooLong, title);
    LengthChain(50, 5000, ContentRequired, ContentTooShort, ContentTooLong, content);
    var t := RunChecks(TitleChecks, title);
    var c := RunChecks(ContentChecks, content);
    if |t.issues| == 0 && |c.issues| == 0 then Valid(PostInput(t.value, c.value))
    else Invalid(FirstIssue(t.issues), FirstIssue(c.issues))
  }

  /** The length checks come before `.trim()` in the chain, so a title of five or more
      spaces passes and is submitted as the empty string. */
  lemma BlankTitleAccepted(title: string, content: string)
    requires 5 <= |title| <= 100 && AllWhiteSpace(title)
    requires 50 <= |content| <= 5000
    ensures Validate(title, content) == Valid(PostInput("", Trim(content)))
  {
  }

  /** `contentLength >= 4500`: the "approaching the character limit" warning, counted on
      the untrimmed text like the schema's checks. */
  predicate ApproachingLimit(content: string)
  {
    |content| >= 4500
  }

  /** The warning is showing whenever the schema rejects the content as too long, and it
      starts 500 characters before the limit, on content the schema still accepts. */
  lemma LimitWarningBand(title: string, content: string)
    requires 5 <= |title| <= 100
    ensures (Validate(title, content).Invalid? && Validate(title, content).contentError == Some(ContentTooLong))
              ==> ApproachingLimit(content)
    ensures ApproachingLimit(content) && Validate(title, content).Valid? <==> 4500 <= |content| <= 5000
  {
  }

  // ---------------------------------------------------------------------------
  // Calls to the backend

  /** What the form asks of the backend and of its host, in the order asked. */
  datatype Call =
    | SelectProfile(id: string)
    | UpsertProfile(id: string, email: string, fullName: string)
    | GetSession
    | InsertPost(title: string, content: string, authorId: string)
    | ResetForm
    | RefreshRoute
    | OnCancel

  /** The answer to `from('profiles').select('*').eq('id', …).single()`. */
  datatype ProfileLookup = ProfileFound | NoProfileRow | LookupError

  /** The backend's answers during one submission: the user the form loaded when it
      mounted, the profile lookup, the session re-read before the insert, and whether the
      insert succeeds. The upsert's own answer is only logged, so it is not an input. */
  datatype Services = Services(formUser: Option<User>, lookup: ProfileLookup, session: Option<User>, insertSucceeds: bool)

  /** `full_name: user_metadata.full_name || user_metadata.name || ''` */
  function ProfileName(u: User): (r: string)
    ensures Truthy(u.fullName) ==> r == u.fullName.value
    ensures !Truthy(u.fullName) && u.name.Some? ==> r == u.name.value
    ensures !Truthy(u.fullName) && u.name == None ==> r == ""
  {
    var hint := OrElse(u.fullName, u.name);
    if hint.Some? then hint.value else ""
  }

  /** The profile row stores the name the page header shows when the user has a name
      hint. Without one it stores "", and a post card by that user reads "Unknown Author"
      while the header falls back to the email. */
  lemma ProfileNameMatchesHeader(u: User, p: Post)
    requires p.authorName == Some(ProfileName(u))
    ensures Truthy(NameHint(u)) ==> ProfileName(u) == DisplayName(u) && AuthorLabel(p) == DisplayName(u)
    ensures !Truthy(NameHint(u)) ==> ProfileName(u) == "" && AuthorLabel(p) == "Unknown Author"
  {
  }

  predicate IsUpsert(c: Call)
  {
    c.UpsertProfile?
  }

  /** `ensureProfileExists`: nothing without a user; otherwise look the profile up, and
      upsert it keyed on the user's id unless the lookup found it. A lookup error other
      than "no rows" is only logged, so it also leads to the upsert. */
  function EnsureProfileExists(user: Option<User>, lookup: ProfileLookup): (calls: seq<Call>)
    ensures user.None? ==> calls == []
    ensures user.Some? ==> |calls| >= 1 && calls[0] == SelectProfile(user.value.id)
    ensures user.Some? ==> |calls| == (if lookup == ProfileFound then 1 else 2)
    ensures (exists i :: 0 <= i < |calls| && IsUpsert(calls[i])) <==> user.Some? && lookup != ProfileFound
    ensures forall i :: 0 <= i < |calls| && IsUpsert(calls[i]) ==>
              i == 1 && calls[i] == UpsertProfile(user.value.id, user.value.email, ProfileName(user.value))
    ensures forall i :: 0 <= i < |calls| ==> calls[i].SelectProfile? || IsUpsert(calls[i])
  {
    if user.None? then []
    else
      var u := user.value;
      var calls := [SelectProfile(u.id)] + (if lookup == ProfileFound then [] else [UpsertProfile(u.id, u.email, ProfileName(u))]);
      assert lookup != ProfileFound ==> IsUpsert(calls[1]);
      calls
  }

  datatype SubmitOutcome = NoSession | InsertFailed | Created

  datatype SubmitRun = SubmitRun(calls: seq<Call>, outcome: SubmitOutcome)

  predicate IsInsert(c: Call)
  {
    c.InsertPost?
  }

  predicate IsProfileCall(c: Call)
  {
    c.SelectProfile? || c.UpsertProfile?
  }

  /** The calls `ensureProfileExists` makes against the given answers. */
  function ProfileSteps(env: Services): seq<Call>
  {
    EnsureProfileExists(env.formUser, env.lookup)
  }

  /** `onSubmit`: ensure the profile, re-read the session and give up without one, insert
      the post under the form's `authorId`, and on success reset the form, refresh the
      route and hand control back through `onCancel`. A failed insert is only logged. */
  function OnSubmit(data: PostInput, authorId: string, env: Services): (run: SubmitRun)
    ensures |run.calls| > |ProfileSteps(env)|
    ensures run.calls[..|ProfileSteps(env)|] == ProfileSteps(env)
    ensures run.calls[|ProfileSteps(env)|] == GetSession
    ensures forall i :: |ProfileSteps(env)| <= i < |run.calls| ==> !IsProfileCall(run.calls[i])
    ensures forall i :: 0 <= i < |run.calls| && IsInsert(run.calls[i]) ==> i == |ProfileSteps(env)| + 1
    ensures env.session.None? <==> |run.calls| == |ProfileSteps(env)| + 1
    ensures env.session.Some? ==> run.calls[|ProfileSteps(env)| + 1] == InsertPost(data.title, data.content, authorId)
    ensures run.outcome == Created <==> env.session.Some? && env.insertSucceeds
    ensures run.outcome == NoSession <==> env.session.None?
    ensures run.outcome != Created ==> |run.calls| <= |ProfileSteps(env)| + 2
    ensures run.outcome == Created ==> run.calls[|ProfileSteps(env)| + 2..] == [ResetForm, RefreshRoute, OnCancel]
  {
    var profile := ProfileSteps(env);
    var prefix := profile + [GetSession];
    if env.session.None? then SubmitRun(prefix, NoSession)
    else
      var inserted := prefix + [InsertPost(data.title, data.content, authorId)];
      if !env.insertSucceeds then SubmitRun(inserted, InsertFailed)
      else SubmitRun(inserted + [ResetForm, RefreshRoute, OnCancel], Created)
  }

  /** The profile is settled before the post is written: no lookup or upsert follows the
      insert, and an upsert, when one is made, precedes it. */
  lemma ProfileBeforeInsert(data: PostInput, authorId: string, env: Services, i: nat, j: nat)
    requires var calls := OnSubmit(data, authorId, env).calls;
             i < |calls| && j < |calls| && IsInsert(calls[i]) && IsProfileCall(calls[j])
    ensures j < i
  {
  }

  // ---------------------------------------------------------------------------
  // The compose modal

  /** The compose modal of the posts page. While open it holds the raw field values and the
      message under each field; closing it unmounts the form, so nothing survives. */
  datatype Compose = Closed | Open(title: string, content: string, titleError: Option<string>, contentError: Option<string>)

  /** What the page does besides the form's own calls: reload the current feed page. */
  datatype Effect = FormCall(call: Call) | RefetchFeed

  function AsEffects(calls: seq<Call>): (r: seq<Effect>)
    ensures |r| == |calls|
    ensures forall i :: 0 <= i < |calls| ==> r[i] == FormCall(calls[i])
  {
    seq(|calls|, i requires 0 <= i < |calls| => FormCall(calls[i]))
  }

  /** Wrapping the form's calls adds no call that was not made, and no feed refetch. */
  lemma AsEffectsLacks(calls: seq<Call>, c: Call)
    requires c !in calls
    ensures FormCall(c) !in AsEffects(calls)
    ensures RefetchFeed !in AsEffects(calls)
  {
  }

  datatype Event = AddPost | Edit(title: string, content: string) | Close | Submit(authorId: string, env: Services)

  /** One step of the compose modal. `handleAddPost` opens an empty form; the close button
      and the form's `onCancel` both run `handleCloseAddPost`, which hides the modal and
      refetches the feed; a submission first goes through the schema. */
  function Step(s: Compose, e: Event): (r: (Compose, seq<Effect>))
    ensures e == AddPost ==> r.1 == [] && r.0.Open? && (s.Open? ==> r.0 == s)
    ensures e == AddPost && s.Closed? ==> r.0 == Open("", "", None, None)
    ensures e.Edit? ==> r.1 == [] && (r.0.Open? <==> s.Open?)
    ensures e.Edit? && s.Open? ==>
              r.0.title == e.title && r.0.content == e.content
              && r.0.titleError == s.titleError && r.0.contentError == s.contentError
    ensures e == Close ==> r.0 == Closed && r.1 == (if s.Open? then [RefetchFeed] else [])
    ensures e.Submit? && s.Closed? ==> r == (s, [])
    ensures e.Submit? && s.Open? ==> r.0.Closed? || r.0 == s.(titleError := r.0.titleError, contentError := r.0.contentError)
    ensures RefetchFeed in r.1 <==> s.Open? && r.0.Closed?
  {
    match e
    case AddPost => (if s.Closed? then Open("", "", None, None) else s, [])
    case Edit(t, c) => (if s.Open? then s.(title := t, content := c) else s, [])
    case Close => (Closed, if s.Open? then [RefetchFeed] else [])
    case Submit(authorId, env) =>
      if s.Closed? then (s, [])
      else match Validate(s.title, s.content)
        case Invalid(te, ce) => (s.(titleError := te, contentError := ce), [])
        case Valid(data) =>
          var run := OnSubmit(data, authorId, env);
          if run.outcome == Created then (Closed, AsEffects(run.calls) + [RefetchFeed])
          else (s.(titleError := None, contentError := None), AsEffects(run.calls))
  }

  /** A submission the schema rejects reaches nothing: no call is made and the fields stay
      as typed, with each field's first error shown. */
  lemma InvalidSubmitIssuesNothing(s: Compose, authorId: string, env: Services)
    requires s.Open? && Validate(s.title, s.content).Invalid?
    ensures var (s', effects) := Step(s, Submit(authorId, env));
            && effects == []
            && s'.Open? && s'.title == s.title && s'.content == s.content
            && s'.titleError == Validate(s.title, s.content).titleError
            && s'.contentError == Validate(s.title, s.content).contentError
  {
  }

  /** A submission that does not create the post leaves the modal open with the fields as
      typed, and neither resets the form nor closes it. */
  lemma FailedSubmitKeepsForm(s: Compose, authorId: string, env: Services)
    requires s.Open? && Validate(s.title, s.content).Valid?
    requires env.session.None? || !env.insertSucceeds
    ensures var (s', effects) := Step(s, Submit(authorId, env));
            && s'.Open? && s'.title == s.title && s'.content == s.content
            && FormCall(ResetForm) !in effects && FormCall(OnCancel) !in effects && RefetchFeed !in effects
  {
    var data := Validate(s.title, s.content).data;
    var run := OnSubmit(data, authorId, env);
    assert Step(s, Submit(authorId, env)) == (s.(titleError := None, contentError := None), AsEffects(run.calls));
    AsEffectsLacks(run.calls, ResetForm);
    AsEffectsLacks(run.calls, OnCancel);
  }

  /** A successful submission inserts exactly the trimmed fields under `authorId`, then
      resets the form, closes the modal and refetches the feed. */
  lemma SuccessfulSubmitCloses(s: Compose, authorId: string, env: Services)
    requires s.Open? && Validate(s.title, s.content).Valid?
    requires env.session.Some? && env.insertSucceeds
    ensures var (s', effects) := Step(s, Submit(authorId, env));
            && s' == Closed
            && |effects| >= 5
            && effects[|effects| - 5..] ==
                 [FormCall(InsertPost(Trim(s.title), Trim(s.content), authorId)),
                  FormCall(ResetForm), FormCall(RefreshRoute), FormCall(OnCancel), RefetchFeed]
  {
    var data := Validate(s.title, s.content).data;
    assert data == PostInput(Trim(s.title), Trim(s.content));
    var run := OnSubmit(data, authorId, env);
    var effects := AsEffects(run.calls) + [RefetchFeed];
    assert Step(s, Submit(authorId, env)) == (Closed, effects);
    var n := |ProfileSteps(env)|;
    assert run.calls[n + 1..] == [InsertPost(data.title, data.content, authorId), ResetForm, RefreshRoute, OnCancel];
    assert |effects| == n + 6;
    assert effects[|effects| - 5..] == [effects[n + 1], effects[n + 2], effects[n + 3], effects[n + 4], effects[n + 5]];
  }
}

=== FILE: entities.dfy ===
/** The records the feed page and the post form work with. */
module Entities {
  import opened Wrappers

  /** A row of the posts collection as the feed receives it. `authorName` is the
      `full_name` of the joined profile, absent when the join found no profile or the
      profile has no name. */
  datatype Post = Post(id: string, title: string, content: string, authorId: string, authorName: Option<string>)

  /** The signed-in user: the session's subject id, its email and the two name hints the
      identity provider may put in the user metadata. */
  datatype User = User(id: string, email: string, fullName: Option<string>, name: Option<string>)
}

=== FILE: js_number.dfy ===
/**
 * JavaScript's conversions between strings and numbers, for integer values: the unary
 * `+s` (Number(s)) and the template-literal rendering `${n}`.
 */
module JsNumber {
  import opened JsString

  /** A JavaScript number as far as this model needs one: NaN or an integer. */
  datatype Number = NaN | Int(value: int)

  /** A number is truthy unless it is 0 or NaN. */
  predicate IsTruthy(n: Number)
  {
    n.Int? && n.value != 0
  }

  predicate IsDigit(c: char)
  {
    '0' <= c <= '9'
  }

  predicate AllDigits(s: string)
  {
    forall i :: 0 <= i < |s| ==> IsDigit(s[i])
  }

  function DigitValue(c: char): (r: nat)
    requires IsDigit(c)
    ensures r < 10
  {
    c as int - '0' as int
  }

  function DigitChar(k: nat): (r: char)
    requires k < 10
    ensures IsDigit(r) && DigitValue(r) == k
  {
    ('0' as int + k) as char
  }

  /** The value of a string of decimal digits, most significant first. */
  function DigitsValue(s: string): nat
    requires AllDigits(s)
  {
    if |s| == 0 then 0 else 10 * DigitsValue(s[..|s| - 1]) + DigitValue(s[|s| - 1])
  }

  /** The shortest decimal rendering of a natural number. */
  function NatToDigits(n: nat): (r: string)
    ensures |r| >= 1 && AllDigits(r)
    ensures |r| > 1 ==> r[0] != '0'
  {
    if n < 10 then [DigitChar(n)] else NatToDigits(n / 10) + [DigitChar(n % 10)]
  }

  /** `${n}` for an integer `n` (below 10^21 in magnitude, where JavaScript switches to
      exponent notation). */
  function ShowInt(n: int): (r: string)
    ensures |r| >= 1
  {
    if n < 0 then "-" + NatToDigits(-n) else NatToDigits(n)
  }

  /** `+s`: white space around the literal is ignored, the empty string is 0, an optionally
      signed run of decimal digits is its value, and anything else is NaN. */
  function ToNumber(s: string): (r: Number)
  {
    var t := Trim(s);
    if |t| == 0 then Int(0)
    else if |t| > 1 && t[0] == '-' && AllDigits(t[1..]) then Int(-(DigitsValue(t[1..]) as int))
    else if |t| > 1 && t[0] == '+' && AllDigits(t[1..]) then Int(DigitsValue(t[1..]))
    else if AllDigits(t) then Int(DigitsValue(t))
    else NaN
  }

  /** Reading back the digits of a natural number gives the number. */
  lemma {:induction false} DigitsRoundTrip(n: nat)
    ensures DigitsValue(NatToDigits(n)) == n
  {
    if n >= 10 {
      var r := NatToDigits(n);
      DigitsRoundTrip(n / 10);
      assert r[..|r| - 1] == NatToDigits(n / 10);
    }
  }

  /** A string that starts and ends with something other than white space is its own trim. */
  lemma TrimNoop(s: string)
    requires |s| >= 1 && !IsWhiteSpace(s[0]) && !IsWhiteSpace(s[|s| - 1])
    ensures Trim(s) == s
  {
    assert LeadingSpace(s) == 0;
    assert TrailingSpace(s) == 0;
  }

  lemma ToNumberOfDigits(s: string)
    requires |s| >= 1 && AllDigits(s)
    ensures ToNumber(s) == Int(DigitsValue(s))
  {
    assert IsDigit(s[0]) && IsDigit(s[|s| - 1]);
    TrimNoop(s);
  }

  lemma ToNumberDigits(n: int)
    requires n >= 0
    ensures ToNumber(ShowInt(n)) == Int(n)
  {
    var s := NatToDigits(n);
    assert ShowInt(n) == s;
    ToNumberOfDigits(s);
    DigitsRoundTrip(n);
  }

  lemma ToNumberOfSignedDigits(s: string)
    requires |s| >= 2 && s[0] == '-' && AllDigits(s[1..])
    ensures ToNumber(s) == Int(-(DigitsValue(s[1..]) as int))
  {
    assert IsDigit(s[1..][|s| - 2]);
    TrimNoop(s);
  }

  lemma ToNumberNegative(n: int)
    requires n < 0
    ensures ToNumber(ShowInt(n)) == Int(n)
  {
    var digits := NatToDigits(-n);
    var s := "-" + digits;
    assert ShowInt(n) == s;
    assert s[1..] == digits;
    ToNumberOfSignedDigits(s);
    DigitsRoundTrip(-n);
  }

  /** `+`${n}`` is `n`: converting an integer to text and back loses nothing. */
  lemma ToNumberShowInt(n: int)
    ensures ToNumber(ShowInt(n)) == Int(n)
  {
    if n < 0 {
      ToNumberNegative(n);
    } else {
      ToNumberDigits(n);
    }
  }
}

=== FILE: js_string.dfy ===
/**
 * The JavaScript string built-ins the feed page and the post form rely on.
 * A string is a Dafny `string`, a sequence of Unicode scalar values. JavaScript counts
 * UTF-16 code units instead, so `|s|` is `s.length` and `s[i]` is `s.charAt(i)` only
 * for text without characters beyond U+FFFF.
 */
module JsString {

  /** `substring` clamps each index into [0, length]. */
  function ClampIndex(i: int, n: nat): (r: nat)
    ensures r <= n
    ensures 0 <= i <= n ==> r == i
    ensures i < 0 ==> r == 0
    ensures i > n ==> r == n
  {
    if i < 0 then 0 else if i > n then n else i
  }

  /** `s.substring(0, end)` */
  function Substring0(s: string, end: int): (r: string)
    ensures r <= s
    ensures |r| == ClampIndex(end, |s|)
  {
    s[..ClampIndex(end, |s|)]
  }

  /** `s.lastIndexOf(c)` for a one-character search string: the greatest index holding
      `c`, or -1 when there is none. */
  function LastIndexOf(s: string, c: char): (r: int)
    ensures -1 <= r < |s|
    ensures r >= 0 ==> s[r] == c
    ensures forall i :: r < i < |s| ==> s[i] != c
  {
    if |s| == 0 then -1
    else if s[|s| - 1] == c then |s| - 1
    else LastIndexOf(s[..|s| - 1], c)
  }

  // ---------------------------------------------------------------------------
  // Upper-casing

  predicate IsAsciiLower(c: char)
  {
    'a' <= c <= 'z'
  }

  predicate IsAsciiUpper(c: char)
  {
    'A' <= c <= 'Z'
  }

  /** `toUpperCase` of one character, for the ASCII letters (other characters are kept). */
  function UpperChar(c: char): (r: char)
    ensures !IsAsciiLower(r)
    ensures IsAsciiLower(c) ==> IsAsciiUpper(r) && r as int + 32 == c as int
    ensures !IsAsciiLower(c) ==> r == c
  {
    if IsAsciiLower(c) then (c as int - 32) as char else c
  }

  // ---------------------------------------------------------------------------
  // Splitting and joining

  /** `d` occurs somewhere inside `s`. */
  predicate Contains(s: string, d: string)
  {
    exists i | 0 <= i <= |s| :: d <= s[i..]
  }

  /** `parts.join(d)` */
  function Join(parts: seq<string>, d: string): string
  {
    if |parts| == 0 then ""
    else if |parts| == 1 then parts[0]
    else parts[0] + d + Join(parts[1..], d)
  }

  /** `s.split("")`: one piece per character (none for the empty string). */
  function Chars(s: string): (r: seq<string>)
    ensures |r| == |s|
    ensures forall i :: 0 <= i < |s| ==> r[i] == [s[i]]
  {
    seq(|s|, i requires 0 <= i < |s| => [s[i]])
  }

  /** `s.split(d)` for a non-empty separator: pieces between the occurrences of `d` found
      scanning left to right without overlap. */
  function SplitOn(s: string, d: string): (r: seq<string>)
    requires |d| > 0
    ensures |r| >= 1
    decreases |s|
  {
    if |s| == 0 then [""]
    else if d <= s then [""] + SplitOn(s[|d|..], d)
    else
      var rest := SplitOn(s[1..], d);
      [[s[0]] + rest[0]] + rest[1..]
  }

  /** `s.split(d)` */
  function Split(s: string, d: string): seq<string>
  {
    if |d| == 0 then Chars(s) else SplitOn(s, d)
  }

  lemma JoinHead(parts: seq<string>, d: string)
    requires |parts| >= 1
    ensures parts[0] <= Join(parts, d)
  {
  }

  lemma JoinCons(p: string, rest: seq<string>, d: string)
    requires |rest| >= 1
    ensures Join([p] + rest, d) == p + d + Join(rest, d)
  {
    assert ([p] + rest)[1..] == rest;
  }

  /** Putting a character in front of the first piece puts it in front of the join. */
  lemma JoinExtendHead(c: char, parts: seq<string>, d: string)
    requires |parts| >= 1
    ensures Join([[c] + parts[0]] + parts[1..], d) == [c] + Join(parts, d)
  {
    if |parts| > 1 {
      JoinCons([c] + parts[0], parts[1..], d);
      assert parts == [parts[0]] + parts[1..];
      JoinCons(parts[0], parts[1..], d);
    }
  }

  lemma SplitOnMatch(s: string, d: string)
    requires |d| > 0 && |s| > 0 && d <= s
    ensures SplitOn(s, d) == [""] + SplitOn(s[|d|..], d)
  {
  }

  lemma SplitOnNoMatch(s: string, d: string)
    requires |d| > 0 && |s| > 0 && !(d <= s)
    ensures var rest := SplitOn(s[1..], d);
            SplitOn(s, d) == [[s[0]] + rest[0]] + rest[1..]
  {
  }

  /** A string that starts with `d` is `d` followed by the rest. */
  lemma PrefixSplit(d: string, s: string)
    requires d <= s
    ensures s == d + s[|d|..]
  {
    assert s[..|d|] == d;
    assert s == s[..|d|] + s[|d|..];
  }

  /** Pieces of the rest of a string that starts with the separator, led by an empty
      piece, join back to the whole string. */
  lemma JoinAfterMatch(s: string, d: string, rest: seq<string>)
    requires d <= s && |rest| >= 1
    requires Join(rest, d) == s[|d|..]
    ensures Join([""] + rest, d) == s
  {
    JoinCons("", rest, d);
    assert "" + d == d;
    PrefixSplit(d, s);
  }

  /** Putting the first character in front of the pieces of the rest of a string joins
      back to the whole string. */
  lemma JoinAfterNoMatch(s: string, d: string, rest: seq<string>)
    requires |s| > 0 && |rest| >= 1
    requires Join(rest, d) == s[1..]
    ensures Join([[s[0]] + rest[0]] + rest[1..], d) == s
  {
    JoinExtendHead(s[0], rest, d);
    assert s == [s[0]] + s[1..];
  }

  /** Joining the pieces of a split with the separator gives back the string. */
  lemma {:induction false} SplitOnJoin(s: string, d: string)
    requires |d| > 0
    ensures Join(SplitOn(s, d), d) == s
    decreases |s|
  {
    if |s| == 0 {
    } else if d <= s {
      SplitOnJoin(s[|d|..], d);
      SplitOnMatch(s, d);
      JoinAfterMatch(s, d, SplitOn(s[|d|..], d));
    } else {
      SplitOnJoin(s[1..], d);
      SplitOnNoMatch(s, d);
      JoinAfterNoMatch(s, d, SplitOn(s[1..], d));
    }
  }

  lemma CharsJoin(s: string)
    ensures Join(Chars(s), "") == s
    decreases |s|
  {
    if |s| > 1 {
      CharsJoin(s[1..]);
      assert Chars(s)[1..] == Chars(s[1..]);
      assert s == [s[0]] + s[1..];
    }
  }

  lemma PrefixTrans(a: string, b: string, c: string)
    requires a <= b && b <= c
    ensures a <= c
  {
    assert c[..|a|] == b[..|a|];
  }

  /** A piece built by putting a character in front of a separator-free piece is still
      separator-free, when the separator does not start at that character. */
  lemma ConsPieceAvoids(c: char, piece: string, s: string, d: string)
    requires |d| > 0
    requires [c] + piece <= s
    requires !(d <= s)
    requires !Contains(piece, d)
    ensures !Contains([c] + piece, d)
  {
    var p := [c] + piece;
    forall i | 0 <= i <= |p|
      ensures !(d <= p[i..])
    {
      if i == 0 {
        assert p[0..] == p;
        if d <= p {
          PrefixTrans(d, p, s);
        }
      } else {
        assert p[i..] == piece[i - 1..];
      }
    }
  }

  /** The empty string contains no non-empty separator. */
  lemma EmptyAvoids(d: string)
    requires |d| > 0
    ensures !Contains("", d)
  {
    forall i | 0 <= i <= 0
      ensures !(d <= ""[i..])
    {
    }
  }

  /** When a string does not start with the separator, putting its first character in
      front of the first of the pieces its rest joins from keeps that piece separator-free. */
  lemma FirstPieceAvoids(s: string, d: string, rest: seq<string>)
    requires |d| > 0 && |s| > 0 && !(d <= s)
    requires |rest| >= 1 && Join(rest, d) == s[1..] && !Contains(rest[0], d)
    ensures !Contains([s[0]] + rest[0], d)
  {
    JoinHead(rest, d);
    assert [s[0]] + rest[0] <= s by {
      PrefixTrans(rest[0], Join(rest, d), s[1..]);
      assert s == [s[0]] + s[1..];
    }
    ConsPieceAvoids(s[0], rest[0], s, d);
  }

  /** No piece of a split contains the separator. */
  lemma {:induction false} SplitOnAvoids(s: string, d: string)
    requires |d| > 0
    ensures AvoidsAll(SplitOn(s, d), d)
    decreases |s|
  {
    if |s| == 0 {
      EmptyAvoids(d);
    } else if d <= s {
      SplitOnAvoids(s[|d|..], d);
      SplitOnMatch(s, d);
      EmptyAvoids(d);
    } else {
      var rest := SplitOn(s[1..], d);
      SplitOnAvoids(s[1..], d);
      SplitOnJoin(s[1..], d);
      SplitOnNoMatch(s, d);
      FirstPieceAvoids(s, d, rest);
    }
  }

  /** Each piece but the last ends at the first occurrence of the separator after its
      start: no occurrence begins inside the piece, even one running on into the
      separator that follows it. */
  predicate EarliestPieces(r: seq<string>, d: string)
    requires |d| > 0
  {
    forall k :: 0 <= k < |r| - 1 ==> !Contains(r[k] + d[..|d| - 1], d)
  }

  /** A string shorter than the separator does not contain it. */
  lemma ShortAvoids(x: string, d: string)
    requires |x| < |d|
    ensures !Contains(x, d)
  {
  }

  /** When the string does not start with the separator, the first piece of its split
      (if a later one follows) still ends at the earliest occurrence. */
  lemma FirstPieceEarliest(s: string, d: string)
    requires |d| > 0 && |s| > 0 && !(d <= s)
    requires |SplitOn(s[1..], d)| > 1
    requires EarliestPieces(SplitOn(s[1..], d), d)
    ensures !Contains([s[0]] + SplitOn(s[1..], d)[0] + d[..|d| - 1], d)
  {
    var rest := SplitOn(s[1..], d);
    var piece := rest[0] + d[..|d| - 1];
    SplitOnJoin(s[1..], d);
    assert rest == [rest[0]] + rest[1..];
    JoinCons(rest[0], rest[1..], d);
    assert piece <= s[1..];
    assert [s[0]] + piece <= s by {
      assert s == [s[0]] + s[1..];
    }
    ConsPieceAvoids(s[0], piece, s, d);
    assert [s[0]] + rest[0] + d[..|d| - 1] == [s[0]] + piece;
  }

  /** `split` scans left to right: every piece but the last stops at the earliest
      occurrence of the separator. */
  lemma {:induction false} SplitOnEarliest(s: string, d: string)
    requires |d| > 0
    ensures EarliestPieces(SplitOn(s, d), d)
    decreases |s|
  {
    if |s| > 0 {
      var r := SplitOn(s, d);
      if d <= s {
        var rest := SplitOn(s[|d|..], d);
        SplitOnEarliest(s[|d|..], d);
        SplitOnMatch(s, d);
        ShortAvoids("" + d[..|d| - 1], d);
        forall k | 0 <= k < |r| - 1
          ensures !Contains(r[k] + d[..|d| - 1], d)
        {
          if k > 0 {
            assert r[k] == rest[k - 1];
          }
        }
      } else {
        var rest := SplitOn(s[1..], d);
        SplitOnEarliest(s[1..], d);
        SplitOnNoMatch(s, d);
        if |rest| > 1 {
          FirstPieceEarliest(s, d);
        }
        forall k | 0 <= k < |r| - 1
          ensures !Contains(r[k] + d[..|d| - 1], d)
        {
          if k > 0 {
            assert r[k] == rest[k];
          }
        }
      }
    }
  }

  /** Dropping the first character keeps a string free of the separator. */
  lemma AvoidsTail(x: string, d: string)
    requires |x| > 0 && !Contains(x, d)
    ensures !Contains(x[1..], d)
  {
    forall i | 0 <= i <= |x[1..]|
      ensures !(d <= x[1..][i..])
    {
      assert x[1..][i..] == x[i + 1..];
    }
  }

  /** A string without the separator splits into itself. */
  lemma {:induction false} SplitOnAvoiding(s: string, d: string)
    requires |d| > 0 && !Contains(s, d)
    ensures SplitOn(s, d) == [s]
    decreases |s|
  {
    if |s| > 0 {
      assert s[0..] == s;
      AvoidsTail(s, d);
      SplitOnAvoiding(s[1..], d);
      SplitOnNoMatch(s, d);
      assert s == [s[0]] + s[1..];
    }
  }

  /** No piece holds the separator. */
  predicate AvoidsAll(r: seq<string>, d: string)
  {
    forall k :: 0 <= k < |r| ==> !Contains(r[k], d)
  }

  /** The pieces after the first keep both properties. */
  lemma TailPieces(r: seq<string>, d: string)
    requires |d| > 0 && |r| > 1 && AvoidsAll(r, d) && EarliestPieces(r, d)
    ensures AvoidsAll(r[1..], d) && EarliestPieces(r[1..], d)
  {
    var tail := r[1..];
    forall k | 0 <= k < |tail| - 1
      ensures !Contains(tail[k] + d[..|d| - 1], d)
    {
      assert tail[k] == r[k + 1];
    }
  }

  /** Taking the first character off the first piece keeps both properties. */
  lemma ShiftedPieces(r: seq<string>, d: string)
    requires |d| > 0 && |r| > 1 && r[0] != "" && AvoidsAll(r, d) && EarliestPieces(r, d)
    ensures AvoidsAll([r[0][1..]] + r[1..], d) && EarliestPieces([r[0][1..]] + r[1..], d)
  {
    var r' := [r[0][1..]] + r[1..];
    var head := r[0] + d[..|d| - 1];
    AvoidsTail(r[0], d);
    AvoidsTail(head, d);
    assert head[1..] == r[0][1..] + d[..|d| - 1];
    forall k | 0 <= k < |r'|
      ensures !Contains(r'[k], d)
    {
      if k > 0 {
        assert r'[k] == r[k];
      }
    }
    forall k | 0 <= k < |r'| - 1
      ensures !Contains(r'[k] + d[..|d| - 1], d)
    {
      if k > 0 {
        assert r'[k] == r[k];
      }
    }
  }

  /** A joined string whose first piece is not empty does not start with the separator
      when that piece ends at the earliest occurrence. */
  lemma NoMatchAtStart(r: seq<string>, d: string)
    requires |d| > 0 && |r| > 1 && r[0] != "" && EarliestPieces(r, d)
    ensures !(d <= Join(r, d))
  {
    var s := Join(r, d);
    var head := r[0] + d[..|d| - 1];
    assert r == [r[0]] + r[1..];
    JoinCons(r[0], r[1..], d);
    assert head[0..] == head;
    assert s[..|d|] == head[..|d|];
  }

  /** The pieces `split` returns are the only ones that join back to the string, hold no
      separator, and each end at the earliest occurrence. */
  lemma {:induction false} SplitOnUnique(s: string, d: string, r: seq<string>)
    requires |d| > 0 && |r| >= 1 && Join(r, d) == s
    requires AvoidsAll(r, d) && EarliestPieces(r, d)
    ensures r == SplitOn(s, d)
    decreases |s|, |r|
  {
    if |r| == 1 {
      SplitOnAvoiding(s, d);
    } else {
      var tail := r[1..];
      assert r == [r[0]] + tail;
      JoinCons(r[0], tail, d);
      if r[0] == "" {
        TailPieces(r, d);
        assert s[|d|..] == Join(tail, d);
        SplitOnUnique(s[|d|..], d, tail);
        SplitOnMatch(s, d);
      } else {
        var r' := [r[0][1..]] + tail;
        NoMatchAtStart(r, d);
        JoinCons(r[0][1..], tail, d);
        assert Join(r', d) == s[1..];
        ShiftedPieces(r, d);
        SplitOnUnique(s[1..], d, r');
        SplitOnNoMatch(s, d);
        assert r[0] == [s[0]] + r[0][1..];
      }
    }
  }

  // ---------------------------------------------------------------------------
  // Trimming

  /** ECMAScript WhiteSpace and LineTerminator code points, the set `trim` removes. */
  predicate IsWhiteSpace(c: char)
  {
    || c == '\t' || c == '\n' || c == '\U{000B}' || c == '\U{000C}' || c == '\r'
    || c == ' ' || c == '\U{00A0}' || c == '\U{1680}'
    || ('\U{2000}' <= c <= '\U{200A}')
    || c == '\U{2028}' || c == '\U{2029}' || c == '\U{202F}' || c == '\U{205F}'
    || c == '\U{3000}' || c == '\U{FEFF}'
  }

  predicate AllWhiteSpace(s: string)
  {
    forall i :: 0 <= i < |s| ==> IsWhiteSpace(s[i])
  }

  /** The number of white-space characters `s` starts with. */
  function LeadingSpace(s: string): (n: nat)
    ensures n <= |s|
    ensures AllWhiteSpace(s[..n])
    ensures n == |s| || !IsWhiteSpace(s[n])
  {
    if |s| > 0 && IsWhiteSpace(s[0]) then
      var n := LeadingSpace(s[1..]) + 1;
      assert s[..n] == [s[0]] + s[1..][..n - 1];
      n
    else 0
  }

  /** The number of white-space characters `s` ends with. */
  function TrailingSpace(s: string): (n: nat)
    ensures n <= |s|
    ensures AllWhiteSpace(s[|s| - n..])
    ensures n == |s| || !IsWhiteSpace(s[|s| - n - 1])
  {
    if |s| > 0 && IsWhiteSpace(s[|s| - 1]) then
      var t := s[..|s| - 1];
      var n := TrailingSpace(t) + 1;
      assert s[|s| - n..] == t[|t| - (n - 1)..] + [s[|s| - 1]];
      n
    else 0
  }

  /** `s.trim()`: the slice of `s` left after removing leading and trailing white space. */
  function Trim(s: string): (r: string)
    ensures |r| <= |s|
    ensures LeadingSpace(s) + |r| <= |s|
    ensures r == s[LeadingSpace(s)..LeadingSpace(s) + |r|]
    ensures AllWhiteSpace(s[..LeadingSpace(s)]) && AllWhiteSpace(s[LeadingSpace(s) + |r|..])
    ensures r == [] || (!IsWhiteSpace(r[0]) && !IsWhiteSpace(r[|r| - 1]))
  {
    var i := LeadingSpace(s);
    if i == |s| then ""
    else
      var j := |s| - TrailingSpace(s);
      assert s[j..] == s[|s| - TrailingSpace(s)..];
      assert forall k :: j <= k < |s| ==> IsWhiteSpace(s[k]) by {
        forall k | j <= k < |s|
          ensures IsWhiteSpace(s[k])
        {
          assert s[k] == s[j..][k - j];
        }
      }
      s[i..j]
  }
}

=== FILE: post_text.dfy ===
/**
 * The text helpers of the posts page (app/posts/page.tsx): avatar initials, null-safe
 * length and split, the 200-character excerpt and the reading-time estimate, and the
 * way the page header names the signed-in user.
 */
module PostText {
  import opened Wrappers
  import opened JsString
  import opened Entities

  /** `getFirstChar`: the avatar letter, "U" when there is no name to take it from. */
  function GetFirstChar(s: Option<string>): (r: string)
    ensures |r| == 1
    ensures !Truthy(s) ==> r == "U"
    ensures Truthy(s) ==> r[0] == UpperChar(s.value[0])
    ensures !IsAsciiLower(r[0])
  {
    if !Truthy(s) then "U" else [UpperChar(s.value[0])]
  }

  /** `getStringLength`: the length of a present string, 0 for null or undefined. */
  function GetStringLength(s: Option<string>): (r: nat)
    ensures r == 0 <==> !Truthy(s)
    ensures s.Some? ==> r == |s.value|
  {
    if !Truthy(s) then 0 else |s.value|
  }

  /** `safeSplit`: the pieces of a present, non-empty string between occurrences of the
      delimiter, found left to right; no pieces at all for null, undefined or "". */
  function SafeSplit(s: Option<string>, delimiter: string): (r: seq<string>)
    ensures !Truthy(s) ==> r == []
    ensures Truthy(s) ==> Join(r, delimiter) == s.value
    ensures Truthy(s) ==> |r| >= 1
    ensures |delimiter| > 0 ==> AvoidsAll(r, delimiter)
    ensures |delimiter| > 0 ==> EarliestPieces(r, delimiter)
    ensures |delimiter| == 0 ==> forall k :: 0 <= k < |r| ==> |r[k]| == 1
  {
    if !Truthy(s) then []
    else if |delimiter| == 0 then
      CharsJoin(s.value);
      Split(s.value, delimiter)
    else
      SplitOnJoin(s.value, delimiter);
      SplitOnAvoids(s.value, delimiter);
      SplitOnEarliest(s.value, delimiter);
      Split(s.value, delimiter)
  }

  /** Whether the excerpt of a `maxLength` window is cut back to a word boundary: the last
      space in the window lies beyond four fifths of it (`lastSpace > maxLength * 0.8`). */
  predicate CutsAtSpace(lastSpace: int, maxLength: int)
  {
    5 * lastSpace > 4 * maxLength
  }

  /** `createExcerpt`: short content is shown whole; longer content is cut to its first
      `maxLength` characters, pulled back to the last space when that space is late in the
      window, and followed by "...". */
  function CreateExcerpt(content: string, maxLength: int): (r: string)
    ensures content == "" ==> r == ""
    ensures |content| <= maxLength ==> r == content
    ensures content != "" && |content| > maxLength ==>
              && |r| >= 3 && r[|r| - 3..] == "..."
              && r[..|r| - 3] <= content
              && |r| - 3 <= ClampIndex(maxLength, |content|)
    ensures |content| > maxLength >= 0 ==>
              var kept := |r| - 3;
              && (kept < maxLength ==>
                    && content[kept] == ' ' && CutsAtSpace(kept, maxLength)
                    && forall i :: kept < i < maxLength ==> content[i] != ' ')
              && (kept == maxLength <==>
                    forall i :: 0 <= i < maxLength && CutsAtSpace(i, maxLength) ==> content[i] != ' ')
  {
    if content == "" then ""
    else if |content| <= maxLength then content
    else
      var excerpt := Substring0(content, maxLength);
      var lastSpace := LastIndexOf(excerpt, ' ');
      var cut := if CutsAtSpace(lastSpace, maxLength) then Substring0(excerpt, lastSpace) else excerpt;
      cut + "..."
  }

  /** The page calls `createExcerpt(post.content, 200)`: a long post's excerpt keeps more
      than 160 and at most 200 of its characters before the ellipsis. */
  lemma ExcerptAtCallSite(content: string)
    requires |content| > 200
    ensures 164 <= |CreateExcerpt(content, 200)| <= 203
  {
  }

  /** The reading-time label, `~~(length / 200) + 1` minutes: one more than the number of
      complete 200-character blocks, so 1 for empty content and 2 at exactly 200. */
  function ReadingMinutes(content: string): (r: nat)
    ensures r >= 1
    ensures 200 * (r - 1) <= |content| < 200 * r
  {
    var len := GetStringLength(Some(content));
    if len != 0 then len / 200 + 1 else 1
  }

  /** `user_metadata.full_name || user_metadata.name`: the first truthy name hint. */
  function NameHint(u: User): Option<string>
  {
    OrElse(u.fullName, u.name)
  }

  /** The header avatar: the initial of the first truthy of full name, name and email. */
  function AvatarInitial(u: User): (r: string)
    ensures |r| == 1
    ensures Truthy(NameHint(u)) ==> r == GetFirstChar(NameHint(u))
    ensures !Truthy(NameHint(u)) ==> r == GetFirstChar(Some(u.email))
  {
    GetFirstChar(OrElse(NameHint(u), Some(u.email)))
  }

  lemma NotContainsChar(s: string, c: char)
    requires !Contains(s, [c])
    ensures forall i :: 0 <= i < |s| ==> s[i] != c
  {
    forall i | 0 <= i < |s|
      ensures s[i] != c
    {
      assert !([c] <= s[i..]);
    }
  }

  /** The header name: a name hint when there is one, else the part of the email before
      its first '@' (`safeSplit(email, '@').at(0)`), else "". */
  function DisplayName(u: User): (r: string)
    ensures Truthy(NameHint(u)) ==> r == NameHint(u).value
    ensures !Truthy(NameHint(u)) ==>
              && r <= u.email
              && (forall i :: 0 <= i < |r| ==> r[i] != '@')
              && (r == u.email || u.email[|r|] == '@')
  {
    if Truthy(NameHint(u)) then NameHint(u).value
    else if u.email != "" then
      var parts := SafeSplit(Some(u.email), "@");
      JoinHead(parts, "@");
      NotContainsChar(parts[0], '@');
      parts[0]
    else ""
  }

  /** The avatar letter agrees with the name shown beside it whenever that name is not
      empty. */
  lemma {:induction false} AvatarMatchesDisplayName(u: User)
    requires DisplayName(u) != ""
    ensures AvatarInitial(u) == GetFirstChar(Some(DisplayName(u)))
  {
    if !Truthy(NameHint(u)) {
      var d := DisplayName(u);
      assert d[0] == u.email[0];
    }
  }

  /** The author line of a post card: the joined profile's name, "Unknown Author" when
      the post has none. */
  function AuthorLabel(p: Post): (r: string)
    ensures r != ""
    ensures Truthy(p.authorName) ==> r == p.authorName.value
    ensures !Truthy(p.authorName) ==> r == "Unknown Author"
  {
    if Truthy(p.authorName) then p.authorName.value else "Unknown Author"
  }

  /** The card's avatar letter is always the initial of its author line: the fallback
      avatar "U" happens to be the initial of "Unknown Author". */
  lemma CardAvatarMatchesAuthor(p: Post)
    ensures GetFirstChar(p.authorName) == GetFirstChar(Some(AuthorLabel(p)))
  {
    if !Truthy(p.authorName) {
      assert AuthorLabel(p)[0] == 'U';
    }
  }
}

=== FILE: posts_feed.dfy ===
/**
 * The feed logic of the posts page (app/posts/page.tsx): the `page` query parameter,
 * the variables of the paged query, the pagination flags, the "All / Mine" filter over
 * the fetched page, the URLs the pager and the filter tabs navigate to, and which of
 * the empty state or the post grid is shown.
 */
module PostsFeed {
  import opened Wrappers
  import opened JsNumber
  import opened SearchParams
  import opened Entities

  /** `POSTS_PER_PAGE` */
  const PostsPerPage: nat := 5

  // ---------------------------------------------------------------------------
  // The page number

  /** `+(searchParams.get('page') || '1') || 1`: a missing or empty parameter reads as
      "1", and a value that converts to 0 or NaN gives 1. Any other value is kept as it
      is, negative ones included. */
  function ParsePage(param: Option<string>): (page: int)
    ensures page != 0
    ensures !Truthy(param) ==> page == 1
    ensures Truthy(param) && !IsTruthy(ToNumber(param.value)) ==> page == 1
    ensures Truthy(param) && IsTruthy(ToNumber(param.value)) ==> page == ToNumber(param.value).value
  {
    var pageStr := if Truthy(param) then param.value else "1";
    ToNumberOfDigits("1");
    var n := ToNumber(pageStr);
    if IsTruthy(n) then n.value else 1
  }

  /** The page a location shows once the router has navigated to it. */
  function PageOf(loc: Location): int
  {
    ParsePage(Get(loc.query, "page"))
  }

  /** Writing an integer into the parameter and parsing it back gives that integer, except
      that 0 reads as page 1. */
  lemma ParsePageShowInt(n: int)
    ensures ParsePage(Some(ShowInt(n))) == (if n == 0 then 1 else n)
  {
    ToNumberShowInt(n);
  }

  /** Negative page numbers are not clamped: `?page=-3` asks for page -3, whose query
      starts 20 rows before the first. */
  lemma NegativePageNotClamped()
    ensures ParsePage(Some("-3")) == -3
    ensures FetchVariables(ParsePage(Some("-3"))).offset == -20
  {
    assert ShowInt(-3) == "-3";
    ParsePageShowInt(-3);
    assert FetchVariables(-3) == FetchVars(5, -20);
  }

  // ---------------------------------------------------------------------------
  // The paged query

  /** The variables of the `GET_POSTS` query. */
  datatype FetchVars = FetchVars(first: nat, offset: int)

  /** `{ first: POSTS_PER_PAGE, offset: (page - 1) * POSTS_PER_PAGE }` */
  function FetchVariables(page: int): (v: FetchVars)
    ensures v.first == PostsPerPage
    ensures v.offset < 0 <==> page < 1
    ensures page >= 1 ==> v.offset % PostsPerPage == 0
  {
    FetchVars(PostsPerPage, (page - 1) * PostsPerPage)
  }

  /** Row `k` of the server's ordering lies in the window a query asks for. */
  predicate InWindow(k: int, v: FetchVars)
  {
    v.offset <= k < v.offset + v.first
  }

  /** Pages 1, 2, 3, ... tile the server's rows: each row belongs to exactly one page, and
      consecutive pages ask for adjacent windows. */
  lemma PagesTile(k: nat, page: int)
    requires page >= 1
    ensures InWindow(k, FetchVariables(page)) <==> page == k / PostsPerPage + 1
    ensures FetchVariables(page + 1).offset == FetchVariables(page).offset + PostsPerPage
  {
  }

  /** An idealised backend answering a query: the rows from `offset` on, at most `first`
      of them. The ordering of `corpus` is the server's and is not modelled here. */
  function Window(corpus: seq<Post>, v: FetchVars): (r: seq<Post>)
    requires v.offset >= 0
    ensures |r| <= v.first
    ensures |r| == 0 || v.offset + |r| <= |corpus|
    ensures forall i :: 0 <= i < |r| ==> r[i] == corpus[v.offset + i]
  {
    if v.offset >= |corpus| then []
    else if v.offset + v.first >= |corpus| then corpus[v.offset..]
    else corpus[v.offset..v.offset + v.first]
  }

  // ---------------------------------------------------------------------------
  // Pagination flags

  /** `hasNextPage`: the fetched page is full. */
  predicate HasNextPage(fetched: seq<Post>)
  {
    |fetched| == PostsPerPage
  }

  /** `hasPreviousPage`: offered exactly when the current query skips at least a page of
      rows, so never on page 1 or on the negative pages the URL can ask for. */
  predicate HasPreviousPage(page: int)
    ensures HasPreviousPage(page) <==> FetchVariables(page).offset >= PostsPerPage
  {
    page > 1
  }

  /** Against a backend that answers with its window, "Next" is offered exactly when the
      rows reach the end of the current page: it is never missing when more rows exist,
      but it is also offered when the current page holds the very last rows. */
  lemma {:induction false} HasNextPageHeuristic(corpus: seq<Post>, page: int)
    requires page >= 1
    ensures HasNextPage(Window(corpus, FetchVariables(page))) <==> |corpus| >= page * PostsPerPage
    ensures |corpus| > page * PostsPerPage ==> HasNextPage(Window(corpus, FetchVariables(page)))
  {
    var v := FetchVariables(page);
    assert v.offset + v.first == page * PostsPerPage;
  }

  /** When the corpus ends exactly at a page boundary, "Next" leads to an empty page. */
  lemma FullLastPageLeadsNowhere(corpus: seq<Post>, page: int)
    requires page >= 1 && |corpus| == page * PostsPerPage
    ensures HasNextPage(Window(corpus, FetchVariables(page)))
    ensures Window(corpus, FetchVariables(page + 1)) == []
  {
    HasNextPageHeuristic(corpus, page);
  }

  // ---------------------------------------------------------------------------
  // The "All / Mine" filter

  datatype ViewFilter = All | Mine

  /** `allPosts.filter(post => post.author_id === user?.id)` */
  function OwnPosts(posts: seq<Post>, userId: string): (r: seq<Post>)
    ensures |r| <= |posts|
    ensures forall i :: 0 <= i < |r| ==> r[i].authorId == userId
  {
    if |posts| == 0 then []
    else
      var last := posts[|posts| - 1];
      OwnPosts(posts[..|posts| - 1], userId) + (if last.authorId == userId then [last] else [])
  }

  /** `posts`: the fetched page itself, or only the user's own posts on it. Either way
      it is a selection of the fetched page in page order. */
  function DisplayedPosts(fetched: seq<Post>, filter: ViewFilter, userId: string): (r: seq<Post>)
    ensures IsSubsequence(r, fetched)
    ensures filter == All ==> |r| == |fetched|
    ensures filter == Mine ==> |r| == |OwnIndices(fetched, userId)|
    ensures filter == Mine ==> forall i :: 0 <= i < |r| ==> r[i].authorId == userId
  {
    if filter == Mine then
      OwnPostsIsOrderedSelection(fetched, userId);
      OwnPosts(fetched, userId)
    else
      SubsequenceRefl(fetched);
      fetched
  }

  /** `a` can be obtained from `b` by deleting elements. */
  predicate IsSubsequence(a: seq<Post>, b: seq<Post>)
  {
    if |a| == 0 then true
    else if |b| == 0 then false
    else if a[|a| - 1] == b[|b| - 1] then IsSubsequence(a[..|a| - 1], b[..|b| - 1])
    else IsSubsequence(a, b[..|b| - 1])
  }

  /** The positions of the fetched page that hold the user's own posts. */
  function OwnIndices(posts: seq<Post>, userId: string): set<int>
  {
    set i | 0 <= i < |posts| && posts[i].authorId == userId
  }

  lemma OwnIndicesSplit(posts: seq<Post>, userId: string)
    requires |posts| > 0
    ensures var init := posts[..|posts| - 1];
            OwnIndices(posts, userId)
              == OwnIndices(init, userId) + (if posts[|posts| - 1].authorId == userId then {|posts| - 1} else {})
  {
  }

  /** The filter keeps the user's posts, in their order on the page, and all of them. */
  lemma {:induction false} OwnPostsIsOrderedSelection(posts: seq<Post>, userId: string)
    ensures IsSubsequence(OwnPosts(posts, userId), posts)
    ensures |OwnPosts(posts, userId)| == |OwnIndices(posts, userId)|
    decreases |posts|
  {
    if |posts| > 0 {
      var init := posts[..|posts| - 1];
      var last := posts[|posts| - 1];
      OwnPostsIsOrderedSelection(init, userId);
      OwnIndicesSplit(posts, userId);
      var r := OwnPosts(posts, userId);
      if last.authorId == userId {
        assert r[..|r| - 1] == OwnPosts(init, userId);
        assert |posts| - 1 !in OwnIndices(init, userId);
      } else {
        assert r == OwnPosts(init, userId);
        SubsequenceOfInit(r, posts);
      }
    }
  }

  lemma {:induction false} SubsequenceRefl(a: seq<Post>)
    ensures IsSubsequence(a, a)
    decreases |a|
  {
    if |a| > 0 {
      SubsequenceRefl(a[..|a| - 1]);
    }
  }

  lemma SubsequenceOfInit(a: seq<Post>, b: seq<Post>)
    requires |b| > 0 && IsSubsequence(a, b[..|b| - 1])
    ensures IsSubsequence(a, b)
    decreases |a| + |b|, 1
  {
    if |a| > 0 && a[|a| - 1] == b[|b| - 1] {
      SubsequencePrefix(a, b[..|b| - 1]);
    }
  }

  lemma {:induction false} SubsequencePrefix(a: seq<Post>, b: seq<Post>)
    requires |a| > 0 && IsSubsequence(a, b)
    ensures IsSubsequence(a[..|a| - 1], b)
    decreases |a| + |b|, 0
  {
    var a' := a[..|a| - 1];
    if |b| > 0 {
      var b' := b[..|b| - 1];
      if a[|a| - 1] == b[|b| - 1] {
        SubsequenceOfInit(a', b);
      } else {
        SubsequencePrefix(a, b');
        SubsequenceOfInit(a', b);
      }
    }
  }

  /** A subsequence of the page made of the user's posts has at most as many elements as
      the page has own positions. */
  lemma {:induction false} OwnSubsequenceBound(s: seq<Post>, posts: seq<Post>, userId: string)
    requires IsSubsequence(s, posts)
    requires forall i :: 0 <= i < |s| ==> s[i].authorId == userId
    ensures |s| <= |OwnIndices(posts, userId)|
    decreases |posts|
  {
    if |s| > 0 {
      var init := posts[..|posts| - 1];
      OwnIndicesSplit(posts, userId);
      assert |posts| - 1 !in OwnIndices(init, userId);
      if s[|s| - 1] == posts[|posts| - 1] {
        OwnSubsequenceBound(s[..|s| - 1], init, userId);
      } else {
        OwnSubsequenceBound(s, init, userId);
      }
    }
  }

  /** The last post of the page adds one own position exactly when it is the user's. */
  lemma OwnIndicesLast(posts: seq<Post>, userId: string)
    requires |posts| > 0
    ensures |OwnIndices(posts, userId)|
              == |OwnIndices(posts[..|posts| - 1], userId)| + (if posts[|posts| - 1].authorId == userId then 1 else 0)
  {
    OwnIndicesSplit(posts, userId);
    assert |posts| - 1 !in OwnIndices(posts[..|posts| - 1], userId);
  }

  /** When the selection does not end with the page's last post, that post is not the
      user's, and the selection is a complete one of the rest of the page. */
  lemma SelectionSkipsLast(s: seq<Post>, posts: seq<Post>, userId: string)
    requires |posts| > 0 && IsSubsequence(s, posts)
    requires forall i :: 0 <= i < |s| ==> s[i].authorId == userId
    requires |s| == |OwnIndices(posts, userId)|
    requires |s| == 0 || s[|s| - 1] != posts[|posts| - 1]
    ensures posts[|posts| - 1].authorId != userId
    ensures IsSubsequence(s, posts[..|posts| - 1])
    ensures |s| == |OwnIndices(posts[..|posts| - 1], userId)|
    ensures OwnPosts(posts, userId) == OwnPosts(posts[..|posts| - 1], userId)
  {
    var init := posts[..|posts| - 1];
    OwnIndicesLast(posts, userId);
    assert IsSubsequence(s, init);
    OwnSubsequenceBound(s, init, userId);
  }

  /** When the selection ends with the page's last post, dropping both leaves a complete
      selection of the rest of the page. */
  lemma SelectionTakesLast(s: seq<Post>, posts: seq<Post>, userId: string)
    requires |posts| > 0 && |s| > 0 && IsSubsequence(s, posts)
    requires forall i :: 0 <= i < |s| ==> s[i].authorId == userId
    requires |s| == |OwnIndices(posts, userId)|
    requires s[|s| - 1] == posts[|posts| - 1]
    ensures IsSubsequence(s[..|s| - 1], posts[..|posts| - 1])
    ensures |s| - 1 == |OwnIndices(posts[..|posts| - 1], userId)|
    ensures OwnPosts(posts, userId) == OwnPosts(posts[..|posts| - 1], userId) + [posts[|posts| - 1]]
  {
    OwnIndicesLast(posts, userId);
  }

  /** Conversely, any ordered selection of the user's posts that misses none of them is
      what the "Mine" tab shows. */
  lemma {:induction false} OwnPostsUnique(s: seq<Post>, posts: seq<Post>, userId: string)
    requires IsSubsequence(s, posts)
    requires forall i :: 0 <= i < |s| ==> s[i].authorId == userId
    requires |s| == |OwnIndices(posts, userId)|
    ensures s == OwnPosts(posts, userId)
    decreases |posts|
  {
    if |posts| > 0 {
      var init := posts[..|posts| - 1];
      if |s| > 0 && s[|s| - 1] == posts[|posts| - 1] {
        SelectionTakesLast(s, posts, userId);
        OwnPostsUnique(s[..|s| - 1], init, userId);
        assert s == s[..|s| - 1] + [s[|s| - 1]];
      } else {
        SelectionSkipsLast(s, posts, userId);
        OwnPostsUnique(s, init, userId);
      }
    }
  }

  /** The two tab badges: `allPosts.length` and the own-post count of the same page. The
      "Mine" badge never exceeds the "All" badge. */
  lemma BadgeCounts(fetched: seq<Post>, userId: string)
    ensures |OwnPosts(fetched, userId)| <= |fetched|
    ensures |DisplayedPosts(fetched, All, userId)| == |fetched|
  {
  }

  /** A page made only of the user's posts is kept whole by the filter. */
  lemma {:induction false} OwnPostsOfOwnPage(posts: seq<Post>, userId: string)
    requires forall i :: 0 <= i < |posts| ==> posts[i].authorId == userId
    ensures OwnPosts(posts, userId) == posts
  {
    if |posts| > 0 {
      OwnPostsOfOwnPage(posts[..|posts| - 1], userId);
      assert posts == posts[..|posts| - 1] + [posts[|posts| - 1]];
    }
  }

  /** The "Mine" tab filters only the page already fetched, so it can show at most a page
      of the user's posts: when every row is by one author and there are more than five,
      the corpus holds all of them as theirs, but page 1 shows only the first five. */
  lemma MineSeesOnlyCurrentPage(corpus: seq<Post>, author: string)
    requires |corpus| > PostsPerPage
    requires forall i :: 0 <= i < |corpus| ==> corpus[i].authorId == author
    ensures |OwnPosts(corpus, author)| == |corpus|
    ensures DisplayedPosts(Window(corpus, FetchVariables(1)), Mine, author) == corpus[..PostsPerPage]
  {
    var page1 := Window(corpus, FetchVariables(1));
    assert page1 == corpus[..PostsPerPage];
    OwnPostsOfOwnPage(corpus, author);
    OwnPostsOfOwnPage(page1, author);
  }

  // ---------------------------------------------------------------------------
  // Navigation

  /** `handlePageChange`: page 1 is written as no `page` parameter at all, any other page
      sets the parameter; everything else in the query is kept. */
  function HandlePageChange(current: Url, newPage: int): (loc: Location)
    ensures loc.path == current.path
    ensures newPage == 1 ==> Values(loc.query, "page") == []
    ensures newPage != 1 ==> Values(loc.query, "page") == [ShowInt(newPage)]
    ensures forall k :: k != "page" ==> Values(loc.query, k) == Values(current.query, k)
  {
    var q := if newPage == 1 then Delete(current.query, "page")
             else Set(current.query, "page", ShowInt(newPage));
    Location(current.path, q)
  }

  /** Navigating to a page and reading the page back from the new URL gives that page, for
      every page other than 0. */
  lemma PageChangeRoundTrip(current: Url, n: int)
    requires n != 0
    ensures PageOf(HandlePageChange(current, n)) == n
  {
    if n != 1 {
      ParsePageShowInt(n);
    }
  }

  /** The pager's buttons call `handlePageChange(page - 1)` and `handlePageChange(page + 1)`.
      "Previous" (enabled only past page 1) lands on the page before. "Next" lands on the
      page after, except on page -1, reachable only through the URL: there it writes
      `?page=0`, which reads back as page 1. */
  lemma PagerSteps(current: Url, page: int)
    requires page != 0
    ensures HasPreviousPage(page) ==> PageOf(HandlePageChange(current, page - 1)) == page - 1
    ensures PageOf(HandlePageChange(current, page + 1)) == (if page == -1 then 1 else page + 1)
  {
    if page > 1 {
      PageChangeRoundTrip(current, page - 1);
    }
    if page == -1 {
      ParsePageShowInt(0);
    } else {
      PageChangeRoundTrip(current, page + 1);
    }
  }

  /** The result of clicking a filter tab: the new filter and the location pushed. */
  datatype FilterChange = FilterChange(filter: ViewFilter, target: Location)

  /** `handleViewFilter`: sets the filter and navigates to the bare `/posts`. */
  function HandleViewFilter(f: ViewFilter): (c: FilterChange)
    ensures c.filter == f
    ensures c.target.path == "/posts" && c.target.query == []
    ensures PageOf(c.target) == 1
  {
    FilterChange(f, Location("/posts", []))
  }

  // ---------------------------------------------------------------------------
  // What the feed area shows

  datatype Pager = NoPager | Pager(previousEnabled: bool, nextEnabled: bool)

  datatype FeedView = EmptyFeed(heading: string) | PostGrid(posts: seq<Post>, pager: Pager)

  /** The feed area: an empty-state heading chosen by the filter when nothing is to be
      shown, otherwise the grid with a pager when either direction is open. */
  function RenderFeed(page: int, fetched: seq<Post>, filter: ViewFilter, userId: string): (v: FeedView)
    ensures v.EmptyFeed? <==> DisplayedPosts(fetched, filter, userId) == []
    ensures v.EmptyFeed? ==> v.heading == (if filter == Mine then "Your story starts here" else "Be the first to share")
    ensures v.PostGrid? ==> v.posts == DisplayedPosts(fetched, filter, userId)
    ensures v.PostGrid? ==> (v.pager.Pager? <==> HasNextPage(fetched) || HasPreviousPage(page))
    ensures v.PostGrid? && v.pager.Pager? ==>
              v.pager.previousEnabled == HasPreviousPage(page) && v.pager.nextEnabled == HasNextPage(fetched)
  {
    var posts := DisplayedPosts(fetched, filter, userId);
    if |posts| == 0 then
      EmptyFeed(if filter == Mine then "Your story starts here" else "Be the first to share")
    else
      var open := HasNextPage(fetched) || HasPreviousPage(page);
      PostGrid(posts, if open then Pager(HasPreviousPage(page), HasNextPage(fetched)) else NoPager)
  }

  /** The pager lives inside the grid, so a page whose filtered list is empty offers no way
      to another page: in the "Mine" tab, a full page of other authors' posts hides "Next",
      and the empty page after a full last page hides "Previous". */
  lemma EmptyFeedHidesPager(page: int, fetched: seq<Post>, filter: ViewFilter, userId: string)
    requires filter == Mine ==> forall i :: 0 <= i < |fetched| ==> fetched[i].authorId != userId
    requires filter == All ==> fetched == []
    ensures RenderFeed(page, fetched, filter, userId).EmptyFeed?
  {
    if filter == Mine {
      var r := OwnPosts(fetched, userId);
      OwnPostsIsOrderedSelection(fetched, userId);
      assert OwnIndices(fetched, userId) == {};
    }
  }
}

=== FILE: search_params.dfy ===
/**
 * A URL's query as the WHATWG URLSearchParams object sees it: an ordered list of decoded
 * (name, value) pairs. Percent-encoding is below this level: serialising the list into
 * `url.search` and parsing it back on navigation are taken to be inverse.
 */
module SearchParams {
  import opened Wrappers

  type Query = seq<(string, string)>

  /** The browser's current address. */
  datatype Url = Url(path: string, query: Query, fragment: string)

  /** What `router.push(url.pathname + url.search)` navigates to: the fragment is dropped. */
  datatype Location = Location(path: string, query: Query)

  /** `getAll(name)`: the values stored under `name`, in order. */
  function Values(q: Query, name: string): seq<string>
  {
    if |q| == 0 then []
    else if q[0].0 == name then [q[0].1] + Values(q[1..], name)
    else Values(q[1..], name)
  }

  /** `get(name)`: the first value stored under `name`, or null. */
  function Get(q: Query, name: string): Option<string>
  {
    var vs := Values(q, name);
    if |vs| == 0 then None else Some(vs[0])
  }

  /** `delete(name)`: removes every pair named `name`. */
  function Delete(q: Query, name: string): (r: Query)
    ensures Values(r, name) == []
    ensures forall k :: k != name ==> Values(r, k) == Values(q, k)
    ensures |r| <= |q|
  {
    if |q| == 0 then []
    else if q[0].0 == name then Delete(q[1..], name)
    else [q[0]] + Delete(q[1..], name)
  }

  /** `set(name, value)`: the first pair named `name` takes the new value and the others
      are removed; with no such pair, one is appended. */
  function Set(q: Query, name: string, value: string): (r: Query)
    ensures Values(r, name) == [value]
    ensures forall k :: k != name ==> Values(r, k) == Values(q, k)
  {
    if |q| == 0 then [(name, value)]
    else if q[0].0 == name then [(name, value)] + Delete(q[1..], name)
    else [q[0]] + Set(q[1..], name, value)
  }
}

=== FILE: wrappers.dfy ===
/** Optional values: JavaScript's `null` / `undefined` for a field that may be absent. */
module Wrappers {

  datatype Option<+T> = None | Some(value: T)

  /** JavaScript's `a || b` over optional strings: the first operand unless it is falsy
      (absent or the empty string). */
  function OrElse(a: Option<string>, b: Option<string>): Option<string>
  {
    if a.Some? && a.value != "" then a else b
  }

  /** A string value is truthy when present and non-empty. */
  predicate Truthy(a: Option<string>)
  {
    a.Some? && a.value != ""
  }
}
